=== FILE: README.md ===
# DOKUSAI motion model

A Dafny model of the logic behind the DOKUSAI screen (`ContentView.swift`): a
small arena of "person" icons, one of them the user's own, that drift, bounce
off the walls, collide with each other and change their cruising speed now and
then, with a slider that sets how many other people are on screen and a delete
button that removes them one at a time, or all at once on a rapid triple press.

The model is functional: bodies are immutable records over `real`, the
population is a `seq<Body>`, and every handler is a pure step from one state to
the next. The clock (`Date()`), the random draws (`random(in:)`) and the
`UUID` of a new body are parameters.

- `wrappers.dfy` — `Option` and `Result`.
- `bodies.dfy` (module `Bodies`) — vectors, the frame, the `Person` record,
  the constants (icon size 50, speed band 0.1–0.3, retarget interval 3–6 s,
  transition 2 s), the body invariant `WellFormed`, and `Person.init` as
  `NewBody`.
- `population.dfy` (module `Population`) — `adjustPeople`: a declarative
  `Reconcile` and the loop-based `AdjustPeople` proved equal to it.
- `delete_button.dfy` (module `DeleteButton`) — `deletePerson`'s press
  counter, last press time and slider as a state machine.
- `collision.dfy` (module `Collision`) — the pairwise collision step and the
  pass over all pairs of `updatePositions`.
- `motion.dfy` (module `Motion`) — the wall step, the speed retarget schedule
  and the speed interpolation of `updatePositions`.
- `dokusai_view.dfy` (module `DokusaiView`) — the view's state and its four
  handlers (appear, slider, delete, tick) with the invariant they keep.

Two platform computations cannot be written over `real` and are parameters:
the square root at line 147 (a single pair takes its distance `d` with
`d * d == dx * dx + dy * dy`; the pass over all pairs takes a `norm` function),
and the heading-preserving velocity rebuild through `atan2`, `cos` and `sin`
(a `rescale` function; at construction, the cosine and sine of the random
heading are a unit vector drawn with the other values).

The code divides by the distance between two centres without checking it for
zero (lines 150-153), so a pair whose centres coincide goes on with NaN
coordinates. `ResolvePair` requires a nonzero distance, and the pass over all
pairs stops with `Failure(Coincident(i, j))` at such a pair.

## Model

| member | source | states |
|---|---|---|
| Bodies.NewBody | DOKUSAI/DOKUSAI/ContentView.swift:260-278 | A new body is visible, has the requested user flag, its centre lies in `[25, width-25] × [25, height-25]`, its speed in `[0.1, 0.3]`, its velocity has that speed as its length, and no speed transition is pending, given draws from the source's ranges |
| Population.Reconcile | DOKUSAI/DOKUSAI/ContentView.swift:101-115 | The result has `count + 1` bodies; the first `min(old, count + 1)` are the old ones in order with only `isVisible` set; every appended body is a fresh non-user body; every body is visible |
| Population.AdjustPeople | DOKUSAI/DOKUSAI/ContentView.swift:101-115 | The append loop / `removeLast` / visibility loop of the source computes exactly `Reconcile` |
| Population.UserSurvives | DOKUSAI/DOKUSAI/ContentView.swift:101-110 | With `count >= 0`, the user's body stays first, unchanged but for visibility, and remains the only user body |
| Population.ReconcileIdempotent | DOKUSAI/DOKUSAI/ContentView.swift:101-115 | Reconciling a second time to the same count changes nothing and needs no new bodies |
| DeleteButton.Press | DOKUSAI/DOKUSAI/ContentView.swift:78-98 | A press records its time; after a gap over 1 s the counter restarts at 1; the third press of a chain sets slider and counter to 0; any other press lowers a positive slider by exactly 1; the slider never rises or turns negative and the counter stays in `[0, 2]` |
| DeleteButton.RapidTripleCollapses | DOKUSAI/DOKUSAI/ContentView.swift:80-92 | Three presses with gaps of at most 1 s leave slider 0 and counter 0, whether the first one starts a new chain after a gap over 1 s or follows a zeroed counter (after a collapse, or on a fresh view) |
| DeleteButton.SpacedPressesDecrement | DOKUSAI/DOKUSAI/ContentView.swift:80-97 | Presses each more than 1 s apart lower the slider by exactly one each, floored at 0 |
| DeleteButton.PressesKeepBounds | DOKUSAI/DOKUSAI/ContentView.swift:78-98 | Over any run of presses the slider stays between 0 and its start value and the counter stays in `[0, 2]` |
| Collision.ResolvePair | DOKUSAI/DOKUSAI/ContentView.swift:145-178 | One pair step keeps the sum of the two velocities and the sum of the two positions (equal and opposite impulse and correction), changes nothing but positions and velocities, does nothing to a non-overlapping pair, and leaves the velocities of a separating pair alone |
| Collision.SeparationRestored | DOKUSAI/DOKUSAI/ContentView.swift:174-178 | After the correction an overlapping pair's squared centre distance is exactly `50²` |
| Collision.CorrectionKeepsNormal | DOKUSAI/DOKUSAI/ContentView.swift:151-153 | The correction pushes the centres apart along their normal without turning it |
| Collision.ImpactReversesNormalSpeed | DOKUSAI/DOKUSAI/ContentView.swift:155-178 | For an approaching overlapping pair the normal relative velocity after the step is `-1.2 * relVel`, and the tangential relative velocity is unchanged |
| Collision.ImpactAddsEnergy | DOKUSAI/DOKUSAI/ContentView.swift:158-171 | Each impact adds exactly `(e² - 1)/2 · relVel²` to twice the pair's kinetic energy (restitution 1.2 above 1) |
| Collision.PairNeverLosesEnergy | DOKUSAI/DOKUSAI/ContentView.swift:150-178 | A pair step never lowers the pair's kinetic energy |
| Collision.PassRow | DOKUSAI/DOKUSAI/ContentView.swift:141-180 | One row of the pass: pairs `(i, j)`, `(i, j+1)`, … resolved in turn on the bodies as the previous pairs left them, stopping at a zero distance; a finished row has the same count and changes only positions and velocities, and a stopped row names a pair of row `i` at or after `j` |
| Collision.PassFrom | DOKUSAI/DOKUSAI/ContentView.swift:140-181 | The rows `i, i+1, …` in ascending order, each on the result of the one before; the same count, only motion changed, and a stop names a pair `i' < j'` at or after row `i` |
| Collision.PassRowConserves | DOKUSAI/DOKUSAI/ContentView.swift:141-180 | A finished row keeps the total momentum and the sum of positions, and a row over bodies that do not overlap changes nothing |
| Collision.PassFromConserves | DOKUSAI/DOKUSAI/ContentView.swift:140-181 | The finished pass keeps the total momentum and the sum of positions, and a population with no overlaps is left exactly as it was |
| Collision.PassRowFailsAtZero | DOKUSAI/DOKUSAI/ContentView.swift:147-153 | A row stops only at a pair whose distance is zero in the state the row has reached, which differs from its input only in motion |
| Collision.PassFromFailsAtZero | DOKUSAI/DOKUSAI/ContentView.swift:140-153 | The pass stops only at a pair whose distance is zero when the pass reaches it |
| Collision.ResolveRow | DOKUSAI/DOKUSAI/ContentView.swift:141-180 | The inner loop over `j` computes exactly `PassRow` from `i + 1` |
| Collision.ResolveCollisions | DOKUSAI/DOKUSAI/ContentView.swift:140-181 | The nested loops compute exactly `PassFrom` from row 0, so every pair `i < j` goes through `ResolvePair` in ascending order; the pass keeps the count, the total momentum and the sum of positions, changes only positions and velocities, leaves a population with no overlaps untouched, and stops only at a pair whose distance is zero when the pass reaches it |
| Motion.ReflectAxis | DOKUSAI/DOKUSAI/ContentView.swift:189-196 | With `min <= max` the coordinate ends in `[min, max]`; the velocity component is negated when the moved coordinate is `<= min` or `>= max` and otherwise kept; an in-bounds coordinate is untouched |
| Motion.ClampIsNearest | DOKUSAI/DOKUSAI/ContentView.swift:191 | The clamped coordinate is the point of `[min, max]` nearest the moved one |
| Motion.MoveBody | DOKUSAI/DOKUSAI/ContentView.swift:184-196 | In a frame at least one icon wide and high the body ends inside the walls; each velocity component is kept or negated; nothing but position and velocity changes; a move that stays strictly inside is taken as is |
| Motion.Retarget | DOKUSAI/DOKUSAI/ContentView.swift:199-208 | When the interval has run out the body records `now`, the new interval, the new target and the start time together; otherwise it is unchanged |
| Motion.LerpBetween | DOKUSAI/DOKUSAI/ContentView.swift:214-215 | An interpolated speed lies between the old speed and the target |
| Motion.Interpolate | DOKUSAI/DOKUSAI/ContentView.swift:210-229 | A pending transition moves the speed by the elapsed fraction and keeps the transition, or snaps to the target and clears both optionals once the duration has passed; without both optionals nothing changes |
| Motion.RetargetTickKeepsSpeed | DOKUSAI/DOKUSAI/ContentView.swift:199-215 | On the tick a retarget fires, the elapsed time is 0, so the speed is unchanged and the transition is pending |
| Motion.TransitionCompletes | DOKUSAI/DOKUSAI/ContentView.swift:220-228 | Once the elapsed time reaches the duration, the speed equals the target and target and start time are both cleared |
| Motion.SpeedStepKeepsWellFormed | DOKUSAI/DOKUSAI/ContentView.swift:199-229 | With the clock moving forward, the speed stays in `[0.1, 0.3]` (also mid-transition), the target and start time stay set together, and no recorded time lies in the future |
| Motion.AdvanceKeepsInvariant | DOKUSAI/DOKUSAI/ContentView.swift:183-229 | One body's tick keeps it well formed and, in a large enough frame, inside the walls, and keeps its identity and user flag |
| Motion.SpeedStep | DOKUSAI/DOKUSAI/ContentView.swift:199-229 | The speed step leaves position, identity, user flag and visibility alone; it records `now` and the new interval exactly when the interval has run out; a body with no transition pending and no retarget due is left as it was |
| Motion.AdvanceBody | DOKUSAI/DOKUSAI/ContentView.swift:185-229 | One body's tick moves and reflects first, then runs the speed step: the position is the wall step's, the speed schedule is the same as without the move, a rebuilt velocity starts from the reflected one, identity, user flag and visibility are kept, and the body ends inside a large enough frame |
| Motion.AdvanceAll | DOKUSAI/DOKUSAI/ContentView.swift:183-230 | The per-body loop gives each body exactly its own one-body step with its own draws, keeps count, identities, user flags and visibility, puts every body inside the walls of a large enough frame, and keeps every body well formed |
| DokusaiView.Initial | DOKUSAI/DOKUSAI/ContentView.swift:9-13 | A new view has no bodies, slider 5, counter 0 and its last press time at creation |
| DokusaiView.OnAppear | DOKUSAI/DOKUSAI/ContentView.swift:29-35 | Appearing records the frame, adds the user's body when the list is empty and brings the population to the slider's count plus one |
| DokusaiView.SlideTo | DOKUSAI/DOKUSAI/ContentView.swift:65-70 | Moving the slider sets its value and makes the population that value plus one |
| DokusaiView.DeletePerson | DOKUSAI/DOKUSAI/ContentView.swift:78-98 | A press updates the button state as `Press` does and, when it touches the slider, resizes the population to the new slider value plus one; otherwise the bodies are left alone |
| DokusaiView.Tick | DOKUSAI/DOKUSAI/ContentView.swift:132-231 | A tick is the pass over all pairs followed by the one-body step of every resolved body with its own draws; it fails exactly when the pass stops, at a pair whose distance is zero when the pass reaches it; it keeps count, identities, user flags and visibility, leaves every body inside the walls of a large enough frame, and keeps bodies well formed at any earlier reading well formed now |
| DokusaiView.AppearEstablishes | DOKUSAI/DOKUSAI/ContentView.swift:10-35 | The first appearance of a fresh view yields the user alone in front, six bodies in all, every one well formed and inside the walls |
| DokusaiView.SlideKeepsInvariant | DOKUSAI/DOKUSAI/ContentView.swift:65-70 | Moving the slider keeps the user first and alone, population equal to slider plus one, and keeps bodies well formed and contained |
| DokusaiView.DeleteKeepsInvariant | DOKUSAI/DOKUSAI/ContentView.swift:78-98 | Pressing delete keeps the same invariant, never adds bodies, and keeps bodies well formed and contained |
| DokusaiView.ReconcileKeepsBodyFacts | DOKUSAI/DOKUSAI/ContentView.swift:101-115 | Reconciliation keeps every kept body well formed and contained, and new bodies are both |

## Left out

- The SwiftUI view tree, `PersonView`, the previews and `@State`/`@Published` observation: presentation only.
- `startTimer`/`stopTimer` (lines 118-129): platform scheduling; a tick is the `Tick` method, called by whoever holds the clock.
- `Date()`, `random(in:)` and `UUID()`: clock readings, draws and identifiers are parameters, with the source's ranges as preconditions.
- The `atan2`/`cos`/`sin` rebuild of the velocity: the `rescale` parameter; nothing is claimed about the velocity's length after a speed step.
- `sqrt`: a distance parameter for one pair, a `norm` parameter for the pass.
- Floating-point rounding: all arithmetic is over `real`.
- `Person` is a class, and the source updates the shared objects in place (`people[i]`, `people[j]` at lines 142-143; `for person in people` at lines 112 and 183); the model uses immutable records instead. This changes nothing observable, because every slot holds a distinct object built by its own `Person(...)`, so no update reaches two slots.
- Uniqueness of identifiers: `UUID()` gives every body a fresh id, but the model takes ids as drawn values and does not require them to be distinct.
- Collision.ResolvePair: requires a nonzero distance, because the code divides by it and a zero distance yields NaN, which `real` cannot represent; the pass reports such a pair as `Failure`.
- Collision.SeparationRestored: holds for one pair only; after the whole pass later pairs can undo earlier corrections, so no separation is claimed for the population.
- Collision.PairNeverLosesEnergy: states only "never less"; the strict gain of an approaching pair is the exact equation of `ImpactAddsEnergy`.
- Population.Reconcile: requires `count >= -1`, the bound below which `removeLast` would trap; the handlers only pass slider values in `0...10`.
- The slider's value is modelled as an `int`: the control steps by 1 over `0...10`, so `Int(sliderValue)` is the value itself.
- `speedChangeDuration` is a per-body `var` that nothing changes; it is the constant `SpeedChangeDuration`.
- The second `adjustPeople` that the slider's `.onChange` (lines 68-70) runs after `deletePerson` has changed the slider: it reconciles to the count just reached, a no-op by `Population.ReconcileIdempotent`.
- Bodies.NewBody: requires draws from the source's ranges (`ValidSpawn`), which exist only on a frame at least one icon wide and high; on a narrower frame `random(in: 25...(w-25))` (lines 264-265) is given an empty range and traps.
- Motion.SpeedStepKeepsWellFormed: requires the clock not to run backwards; with a negative elapsed time the code would extrapolate beyond the speed band.

=== FILE: bodies.dfy ===
/**
 * The simulated bodies ("people" icons) of the DOKUSAI screen: plane vectors,
 * the arena frame, the per-body record, and body construction (`Person.init`).
 *
 * `CGFloat`, `TimeInterval` and `Date` are modelled by `real`: a `Date` is a
 * number of seconds on one time axis, so `a.timeIntervalSince(b)` is `a - b`.
 * The random draws, the identifier and the clock reading that the constructor
 * takes from the platform are parameters.
 */
module Bodies {
  import opened Wrappers

  /** Icon diameter: the collision distance and twice the wall margin. */
  const IconSize: real := 50.0
  /** Half an icon: the distance a centre keeps from each wall. */
  const Radius: real := IconSize / 2.0
  /** Cruising speed band, in arena units per tick. */
  const MinSpeed: real := 0.1
  const MaxSpeed: real := 0.3
  /** Range of the random delay between two speed retargets, in seconds. */
  const MinInterval: real := 3.0
  const MaxInterval: real := 6.0
  /** Length of one speed transition, in seconds (`speedChangeDuration`). */
  const SpeedChangeDuration: real := 2.0

  datatype Vec = Vec(x: real, y: real) {
    function Plus(o: Vec): Vec { Vec(x + o.x, y + o.y) }
    function Minus(o: Vec): Vec { Vec(x - o.x, y - o.y) }
    function Scale(k: real): Vec { Vec(k * x, k * y) }
    function Dot(o: Vec): real { x * o.x + y * o.y }
  }

  const Zero: Vec := Vec(0.0, 0.0)

  /** The arena's size as reported by the layout. */
  datatype Frame = Frame(width: real, height: real)

  /** A frame large enough to hold one icon on each axis. */
  predicate Roomy(frame: Frame) {
    frame.width >= IconSize && frame.height >= IconSize
  }

  /** One simulated person. `id` stands for the `UUID` drawn at creation. */
  datatype Body = Body(
    id: nat,
    isUser: bool,
    isVisible: bool,
    pos: Vec,
    vel: Vec,
    speed: real,
    lastSpeedChangeTime: real,
    nextSpeedChangeInterval: real,
    targetSpeed: Option<real>,
    speedChangeStartTime: Option<real>)

  predicate InSpeedBand(s: real) {
    MinSpeed <= s <= MaxSpeed
  }

  /** The centre lies inside the frame shrunk by one radius on every side. */
  predicate Contained(b: Body, frame: Frame) {
    && Radius <= b.pos.x <= frame.width - Radius
    && Radius <= b.pos.y <= frame.height - Radius
  }

  /**
   * The state a body keeps between ticks when the clock reads `now`:
   * speed and any pending target in the band, target and start time
   * set together, and no recorded time in the future.
   */
  predicate WellFormed(b: Body, now: real) {
    && InSpeedBand(b.speed)
    && MinInterval <= b.nextSpeedChangeInterval <= MaxInterval
    && b.lastSpeedChangeTime <= now
    && (b.targetSpeed.Some? <==> b.speedChangeStartTime.Some?)
    && (b.targetSpeed.Some? ==> InSpeedBand(b.targetSpeed.value))
    && (b.speedChangeStartTime.Some? ==> b.speedChangeStartTime.value <= now)
  }

  /**
   * The platform values `Person.init` draws: an identifier, a position,
   * the cosine and sine of a random heading, a speed and a first interval.
   */
  datatype SpawnDraw = SpawnDraw(id: nat, x: real, y: real, heading: Vec, speed: real, interval: real)

  /** The ranges the draws come from (`random(in:)` with closed ranges). */
  predicate ValidSpawn(d: SpawnDraw, frame: Frame) {
    && Radius <= d.x <= frame.width - Radius
    && Radius <= d.y <= frame.height - Radius
    && d.heading.Dot(d.heading) == 1.0
    && InSpeedBand(d.speed)
    && MinInterval <= d.interval <= MaxInterval
  }

  predicate AllValidSpawns(ds: seq<SpawnDraw>, frame: Frame) {
    forall k :: 0 <= k < |ds| ==> ValidSpawn(ds[k], frame)
  }

  /**
   * `Person.init(isUser:frameSize:)` at clock reading `now`: a visible body
   * at a random in-bounds position, moving along a random heading at a random
   * speed in the band, with no speed transition pending.
   */
  function NewBody(isUser: bool, frame: Frame, d: SpawnDraw, now: real): (b: Body)
    requires ValidSpawn(d, frame)
    ensures b.isUser == isUser && b.isVisible && b.id == d.id
    ensures Contained(b, frame)
    ensures InSpeedBand(b.speed)
    ensures b.vel.Dot(b.vel) == b.speed * b.speed
    ensures b.targetSpeed == None && b.speedChangeStartTime == None
    ensures WellFormed(b, now)
  {
    var b := Body(d.id, isUser, true, Vec(d.x, d.y), d.heading.Scale(d.speed), d.speed,
                  now, d.interval, None, None);
    UnitScaled(d.heading, d.speed);
    b
  }

  /** Scaling a unit vector by `k` yields a vector of squared length `k*k`. */
  lemma UnitScaled(u: Vec, k: real)
    requires u.Dot(u) == 1.0
    ensures u.Scale(k).Dot(u.Scale(k)) == k * k
  {
    calc {
      u.Scale(k).Dot(u.Scale(k));
      (k * u.x) * (k * u.x) + (k * u.y) * (k * u.y);
      k * k * (u.x * u.x + u.y * u.y);
      k * k * 1.0;
    }
  }
}

=== FILE: collision.dfy ===
/**
 * Collision resolution, the first half of `DokusaiView.updatePositions`:
 * every unordered pair `(i, j)` with `i < j`, in ascending order, is checked
 * for overlap; an approaching overlapping pair exchanges an impulse along the
 * contact normal with restitution 1.2, and every overlapping pair is pushed
 * apart along the normal until its centres are one icon apart.
 *
 * The square root of line 147 is not expressible over `real`: a single pair
 * takes its distance `d` as a parameter, and the whole pass takes the
 * platform's `norm(dx, dy)` as a function parameter.
 */
module Collision {
  import opened Wrappers
  import opened Bodies

  /** Coefficient of restitution `e`; above 1, so every impact adds energy. */
  const Restitution: real := 1.2
  /** Centres closer than this overlap. */
  const MinDistance: real := IconSize

  /** Vector from the centre of `a` to the centre of `b` (`dx`, `dy`). */
  function Offset(a: Body, b: Body): Vec {
    b.pos.Minus(a.pos)
  }

  /** Unit contact normal from `a` to `b` when `d` is their distance (`nx`, `ny`). */
  function Normal(a: Body, b: Body, d: real): Vec
    requires d != 0.0
  {
    Vec(Offset(a, b).x / d, Offset(a, b).y / d)
  }

  /** Relative velocity of `b` with respect to `a` along the normal (`relVel`). */
  function NormalSpeed(a: Body, b: Body, d: real): real
    requires d != 0.0
  {
    b.vel.Minus(a.vel).Dot(Normal(a, b, d))
  }

  /** Twice the pair's kinetic energy with unit masses. */
  function TwiceKineticEnergy(a: Body, b: Body): real {
    a.vel.Dot(a.vel) + b.vel.Dot(b.vel)
  }

  /** `c` differs from `b` at most in position and velocity. */
  predicate MotionOnly(b: Body, c: Body) {
    b.(pos := c.pos, vel := c.vel) == c
  }

  /** The distance `d` is the exact Euclidean distance between the two centres. */
  predicate ExactDistance(a: Body, b: Body, d: real) {
    d > 0.0 && d * d == Offset(a, b).Dot(Offset(a, b))
  }

  /**
   * Lines 150-178 for one pair at distance `d`. The source divides by `d`,
   * so `d` must not be zero.
   */
  function ResolvePair(a: Body, b: Body, d: real): (r: (Body, Body))
    requires d != 0.0
    ensures r.0.vel.Plus(r.1.vel) == a.vel.Plus(b.vel)
    ensures r.0.pos.Plus(r.1.pos) == a.pos.Plus(b.pos)
    ensures MotionOnly(a, r.0) && MotionOnly(b, r.1)
    ensures d >= MinDistance ==> r == (a, b)
    ensures NormalSpeed(a, b, d) >= 0.0 ==> r.0.vel == a.vel && r.1.vel == b.vel
  {
    if d < MinDistance then
      var n := Normal(a, b, d);
      var relVel := NormalSpeed(a, b, d);
      var j := -(1.0 + Restitution) * relVel / 2.0;
      var va := if relVel < 0.0 then a.vel.Minus(n.Scale(j)) else a.vel;
      var vb := if relVel < 0.0 then b.vel.Plus(n.Scale(j)) else b.vel;
      var overlap := 0.5 * (MinDistance - d);
      (a.(vel := va, pos := a.pos.Minus(n.Scale(overlap))),
       b.(vel := vb, pos := b.pos.Plus(n.Scale(overlap))))
    else
      (a, b)
  }

  /** For a distance that is exact, the contact normal has unit length. */
  lemma NormalIsUnit(a: Body, b: Body, d: real)
    requires ExactDistance(a, b, d)
    ensures Normal(a, b, d).Dot(Normal(a, b, d)) == 1.0
  {
    var o := Offset(a, b);
    var n := Normal(a, b, d);
    assert n.x * d == o.x && n.y * d == o.y;
    calc {
      n.Dot(n) * (d * d);
      (n.x * d) * (n.x * d) + (n.y * d) * (n.y * d);
      o.Dot(o);
      d * d;
    }
  }

  /** Moving two centres apart along their normal scales their offset by `MinDistance / d`. */
  lemma CorrectionScalesOffset(a: Body, b: Body, d: real)
    requires d > 0.0 && d < MinDistance
    ensures Offset(ResolvePair(a, b, d).0, ResolvePair(a, b, d).1) == Offset(a, b).Scale(MinDistance / d)
  {
    var o := Offset(a, b);
    var n := Normal(a, b, d);
    var overlap := 0.5 * (MinDistance - d);
    var k := MinDistance / d;
    assert k * d == MinDistance;
    assert n.x * d == o.x && n.y * d == o.y;
    assert (o.x + 2.0 * overlap * n.x) * d == k * o.x * d;
    assert (o.y + 2.0 * overlap * n.y) * d == k * o.y * d;
  }

  /** After the positional correction the pair's centres are exactly one icon apart. */
  lemma SeparationRestored(a: Body, b: Body, d: real)
    requires ExactDistance(a, b, d) && d < MinDistance
    ensures var r := ResolvePair(a, b, d);
            Offset(r.0, r.1).Dot(Offset(r.0, r.1)) == MinDistance * MinDistance
  {
    var r := ResolvePair(a, b, d);
    var o := Offset(a, b);
    var k := MinDistance / d;
    CorrectionScalesOffset(a, b, d);
    assert k * d == MinDistance;
    calc {
      Offset(r.0, r.1).Dot(Offset(r.0, r.1));
      (k * o.x) * (k * o.x) + (k * o.y) * (k * o.y);
      (k * k) * o.Dot(o);
      (k * k) * (d * d);
      (k * d) * (k * d);
    }
  }

  /** The impulse `j` that an approaching overlapping pair exchanges (line 163). */
  function Impulse(a: Body, b: Body, d: real): real
    requires d != 0.0
  {
    -(1.0 + Restitution) * NormalSpeed(a, b, d) / 2.0
  }

  /** The velocities an approaching overlapping pair leaves the impact with. */
  lemma ImpactVelocities(a: Body, b: Body, d: real)
    requires d > 0.0 && d < MinDistance
    requires NormalSpeed(a, b, d) < 0.0
    ensures var r := ResolvePair(a, b, d);
            var i := Normal(a, b, d).Scale(Impulse(a, b, d));
            r.0.vel == a.vel.Minus(i) && r.1.vel == b.vel.Plus(i)
  {
  }

  /** Exchanging `j` along a unit `n` changes the normal relative speed by `2j`. */
  lemma ExchangeAlongNormal(va: Vec, vb: Vec, n: Vec, j: real)
    requires n.Dot(n) == 1.0
    ensures vb.Plus(n.Scale(j)).Minus(va.Minus(n.Scale(j))).Dot(n) == vb.Minus(va).Dot(n) + 2.0 * j
  {
    assert n.Scale(j).Dot(n) == j * n.Dot(n);
  }

  /** Exchanging an impulse along `n` leaves the relative velocity across `n` untouched. */
  lemma ExchangeAcrossNormal(va: Vec, vb: Vec, n: Vec, j: real)
    ensures var t := Vec(-n.y, n.x);
            vb.Plus(n.Scale(j)).Minus(va.Minus(n.Scale(j))).Dot(t) == vb.Minus(va).Dot(t)
  {
    var t := Vec(-n.y, n.x);
    assert n.Scale(j).Dot(t) == j * (n.x * -n.y + n.y * n.x) == 0.0;
  }

  /** Twice the kinetic energy after exchanging `j` along a unit `n`. */
  lemma ExchangeEnergy(va: Vec, vb: Vec, n: Vec, j: real)
    requires n.Dot(n) == 1.0
    ensures va.Minus(n.Scale(j)).Dot(va.Minus(n.Scale(j))) + vb.Plus(n.Scale(j)).Dot(vb.Plus(n.Scale(j)))
            == va.Dot(va) + vb.Dot(vb) + 2.0 * j * vb.Minus(va).Dot(n) + 2.0 * j * j
  {
    var i := n.Scale(j);
    assert i.Dot(i) == j * j * n.Dot(n);
    assert va.Minus(i).Dot(va.Minus(i)) == va.Dot(va) - 2.0 * va.Dot(i) + i.Dot(i);
    assert vb.Plus(i).Dot(vb.Plus(i)) == vb.Dot(vb) + 2.0 * vb.Dot(i) + i.Dot(i);
    assert vb.Dot(i) - va.Dot(i) == j * vb.Minus(va).Dot(n);
  }

  /** After the correction the pair's new normal, at distance one icon, is the old normal. */
  lemma CorrectionKeepsNormal(a: Body, b: Body, d: real)
    requires d > 0.0 && d < MinDistance
    ensures var r := ResolvePair(a, b, d);
            Normal(r.0, r.1, MinDistance) == Normal(a, b, d)
  {
    var r := ResolvePair(a, b, d);
    var o := Offset(a, b);
    var k := MinDistance / d;
    CorrectionScalesOffset(a, b, d);
    assert k / MinDistance == 1.0 / d;
    assert Offset(r.0, r.1).x / MinDistance == (k * o.x) / MinDistance == o.x / d;
    assert Offset(r.0, r.1).y / MinDistance == (k * o.y) / MinDistance == o.y / d;
  }

  /**
   * An approaching overlapping pair leaves the impact separating at 1.2 times
   * its approach speed along the normal, which the correction does not turn,
   * while the tangential relative velocity is untouched.
   */
  lemma ImpactReversesNormalSpeed(a: Body, b: Body, d: real)
    requires ExactDistance(a, b, d) && d < MinDistance
    requires NormalSpeed(a, b, d) < 0.0
    ensures var r := ResolvePair(a, b, d);
            && Normal(r.0, r.1, MinDistance) == Normal(a, b, d)
            && NormalSpeed(r.0, r.1, MinDistance) == -Restitution * NormalSpeed(a, b, d)
    ensures var r := ResolvePair(a, b, d);
            var t := Vec(-Normal(a, b, d).y, Normal(a, b, d).x);
            r.1.vel.Minus(r.0.vel).Dot(t) == b.vel.Minus(a.vel).Dot(t)
  {
    var n := Normal(a, b, d);
    var j := Impulse(a, b, d);
    NormalIsUnit(a, b, d);
    ImpactVelocities(a, b, d);
    CorrectionKeepsNormal(a, b, d);
    ExchangeAlongNormal(a.vel, b.vel, n, j);
    ExchangeAcrossNormal(a.vel, b.vel, n, j);
  }

  /** Twice the kinetic energy one impact at normal speed `rel` adds: `(e*e - 1)/2 * rel^2`. */
  function EnergyGain(rel: real): real {
    (Restitution * Restitution - 1.0) / 2.0 * (rel * rel)
  }

  /** The energy term of an impulse `j = -(1 + e) * rel / 2`. */
  lemma ImpulseGain(rel: real)
    ensures var j := -(1.0 + Restitution) * rel / 2.0;
            2.0 * j * rel + 2.0 * j * j == EnergyGain(rel)
  {
  }

  /** Because `e > 1`, the gain is never negative. */
  lemma GainNonNegative(rel: real)
    ensures EnergyGain(rel) >= 0.0
  {
    assert Restitution * Restitution - 1.0 == 0.44;
  }

  /** Restitution above 1 makes every resolved impact add `EnergyGain(relVel)` to twice the kinetic energy. */
  lemma ImpactAddsEnergy(a: Body, b: Body, d: real)
    requires ExactDistance(a, b, d) && d < MinDistance
    requires NormalSpeed(a, b, d) < 0.0
    ensures var r := ResolvePair(a, b, d);
            TwiceKineticEnergy(r.0, r.1) == TwiceKineticEnergy(a, b) + EnergyGain(NormalSpeed(a, b, d))
  {
    var n := Normal(a, b, d);
    var rel := NormalSpeed(a, b, d);
    var j := Impulse(a, b, d);
    NormalIsUnit(a, b, d);
    ImpactVelocities(a, b, d);
    ExchangeEnergy(a.vel, b.vel, n, j);
    assert b.vel.Minus(a.vel).Dot(n) == rel;
    ImpulseGain(rel);
  }

  /** Hence resolving a pair never loses kinetic energy. */
  lemma PairNeverLosesEnergy(a: Body, b: Body, d: real)
    requires ExactDistance(a, b, d)
    ensures var r := ResolvePair(a, b, d);
            TwiceKineticEnergy(r.0, r.1) >= TwiceKineticEnergy(a, b)
  {
    if d < MinDistance && NormalSpeed(a, b, d) < 0.0 {
      ImpactAddsEnergy(a, b, d);
      GainNonNegative(NormalSpeed(a, b, d));
    }
  }

  /** Sum of a sequence of vectors. */
  function Sum(vs: seq<Vec>): Vec
    decreases |vs|
  {
    if |vs| == 0 then Zero else vs[0].Plus(Sum(vs[1..]))
  }

  function Velocities(people: seq<Body>): seq<Vec> {
    seq(|people|, k requires 0 <= k < |people| => people[k].vel)
  }

  function Positions(people: seq<Body>): seq<Vec> {
    seq(|people|, k requires 0 <= k < |people| => people[k].pos)
  }

  /** Replacing one vector changes the sum by the difference. */
  lemma {:induction false} SumUpdate(vs: seq<Vec>, i: nat, v: Vec)
    requires i < |vs|
    ensures Sum(vs[i := v]) == Sum(vs).Minus(vs[i]).Plus(v)
    decreases |vs|
  {
    if i == 0 {
      assert vs[i := v][1..] == vs[1..];
    } else {
      assert vs[i := v][1..] == vs[1..][i - 1 := v];
      SumUpdate(vs[1..], i - 1, v);
    }
  }

  /** Replacing two vectors by two others with the same sum keeps the total. */
  lemma PairUpdateKeepsSum(vs: seq<Vec>, i: nat, j: nat, u: Vec, w: Vec)
    requires i < |vs| && j < |vs| && i != j
    requires u.Plus(w) == vs[i].Plus(vs[j])
    ensures Sum(vs[i := u][j := w]) == Sum(vs)
  {
    SumUpdate(vs, i, u);
    SumUpdate(vs[i := u], j, w);
  }

  /** Distance between two centres as the platform computes it (`sqrt(dx * dx + dy * dy)`). */
  function Distance(a: Body, b: Body, norm: (real, real) -> real): real {
    norm(Offset(a, b).x, Offset(a, b).y)
  }

  /** No two bodies overlap. */
  predicate Apart(people: seq<Body>, norm: (real, real) -> real) {
    forall i, j :: 0 <= i < j < |people| ==> Distance(people[i], people[j], norm) >= MinDistance
  }

  /** The pair at which the pass divides by a zero distance (the source goes on with NaN). */
  datatype Coincident = Coincident(i: nat, j: nat)

  /**
   * Lines 141-180 for the row of pairs `(i, j), (i, j + 1), …, (i, n - 1)`:
   * each pair is resolved on the bodies as the pairs before it left them.
   * A zero distance stops the row at that pair.
   */
  function PassRow(s: seq<Body>, i: nat, j: nat, norm: (real, real) -> real): (r: Result<seq<Body>, Coincident>)
    requires i < j <= |s|
    ensures r.Success? ==> |r.value| == |s|
    ensures r.Success? ==> forall k :: 0 <= k < |s| ==> MotionOnly(s[k], r.value[k])
    ensures r.Failure? ==> r.error.i == i && j <= r.error.j < |s|
    decreases |s| - j
  {
    if j == |s| then
      Success(s)
    else
      var d := Distance(s[i], s[j], norm);
      if d == 0.0 then
        Failure(Coincident(i, j))
      else
        var pair := ResolvePair(s[i], s[j], d);
        PassRow(s[i := pair.0][j := pair.1], i, j + 1, norm)
  }

  /**
   * Lines 140-181 from row `i` on: the rows `i, i + 1, …` in ascending
   * order, each on the bodies the rows before it left.
   */
  function PassFrom(s: seq<Body>, i: nat, norm: (real, real) -> real): (r: Result<seq<Body>, Coincident>)
    requires i <= |s|
    ensures r.Success? ==> |r.value| == |s|
    ensures r.Success? ==> forall k :: 0 <= k < |s| ==> MotionOnly(s[k], r.value[k])
    ensures r.Failure? ==> i <= r.error.i < r.error.j < |s|
    decreases |s| - i
  {
    if i == |s| then
      Success(s)
    else
      match PassRow(s, i, i + 1, norm)
      case Failure(e) => Failure(e)
      case Success(t) => PassFrom(t, i + 1, norm)
  }

  /** A row keeps the total momentum and the centre of mass, and a row without overlaps changes nothing. */
  lemma {:induction false} PassRowConserves(s: seq<Body>, i: nat, j: nat, norm: (real, real) -> real)
    requires i < j <= |s|
    ensures var r := PassRow(s, i, j, norm);
            && (r.Success? ==> Sum(Velocities(r.value)) == Sum(Velocities(s)))
            && (r.Success? ==> Sum(Positions(r.value)) == Sum(Positions(s)))
            && (Apart(s, norm) ==> r == Success(s))
    decreases |s| - j
  {
    if j < |s| {
      var d := Distance(s[i], s[j], norm);
      if d != 0.0 {
        var pair := ResolvePair(s[i], s[j], d);
        var next := s[i := pair.0][j := pair.1];
        PairUpdateKeepsSum(Velocities(s), i, j, pair.0.vel, pair.1.vel);
        PairUpdateKeepsSum(Positions(s), i, j, pair.0.pos, pair.1.pos);
        assert Velocities(next) == Velocities(s)[i := pair.0.vel][j := pair.1.vel];
        assert Positions(next) == Positions(s)[i := pair.0.pos][j := pair.1.pos];
        assert Apart(s, norm) ==> d >= MinDistance && next == s;
        PassRowConserves(next, i, j + 1, norm);
      }
    }
  }

  /** The whole pass keeps the total momentum and the centre of mass, and a population without overlaps is left as is. */
  lemma {:induction false} PassFromConserves(s: seq<Body>, i: nat, norm: (real, real) -> real)
    requires i <= |s|
    ensures var r := PassFrom(s, i, norm);
            && (r.Success? ==> Sum(Velocities(r.value)) == Sum(Velocities(s)))
            && (r.Success? ==> Sum(Positions(r.value)) == Sum(Positions(s)))
            && (Apart(s, norm) ==> r == Success(s))
    decreases |s| - i
  {
    if i < |s| {
      PassRowConserves(s, i, i + 1, norm);
      var row := PassRow(s, i, i + 1, norm);
      if row.Success? {
        PassFromConserves(row.value, i + 1, norm);
      }
    }
  }

  /**
   * A row stops only at a pair whose distance is zero at the moment the row
   * reaches it: some state the row passed through, differing from `s` only
   * in motion, puts that pair at distance zero.
   */
  lemma {:induction false} PassRowFailsAtZero(s: seq<Body>, i: nat, j: nat, norm: (real, real) -> real)
    requires i < j <= |s|
    ensures var r := PassRow(s, i, j, norm);
            r.Failure? ==> exists t: seq<Body> ::
              && |t| == |s|
              && (forall k :: 0 <= k < |s| ==> MotionOnly(s[k], t[k]))
              && Distance(t[r.error.i], t[r.error.j], norm) == 0.0
    decreases |s| - j
  {
    var r := PassRow(s, i, j, norm);
    if j < |s| && r.Failure? {
      var d := Distance(s[i], s[j], norm);
      if d == 0.0 {
        assert forall k :: 0 <= k < |s| ==> MotionOnly(s[k], s[k]);
      } else {
        var pair := ResolvePair(s[i], s[j], d);
        var next := s[i := pair.0][j := pair.1];
        PassRowFailsAtZero(next, i, j + 1, norm);
        var t: seq<Body> :| && |t| == |next|
                            && (forall k :: 0 <= k < |next| ==> MotionOnly(next[k], t[k]))
                            && Distance(t[r.error.i], t[r.error.j], norm) == 0.0;
        assert forall k :: 0 <= k < |s| ==> MotionOnly(s[k], next[k]);
        assert forall k :: 0 <= k < |s| ==> MotionOnly(s[k], t[k]);
      }
    }
  }

  /** The whole pass stops only at a pair whose distance is zero when the pass reaches it. */
  lemma {:induction false} PassFromFailsAtZero(s: seq<Body>, i: nat, norm: (real, real) -> real)
    requires i <= |s|
    ensures var r := PassFrom(s, i, norm);
            r.Failure? ==> exists t: seq<Body> ::
              && |t| == |s|
              && (forall k :: 0 <= k < |s| ==> MotionOnly(s[k], t[k]))
              && Distance(t[r.error.i], t[r.error.j], norm) == 0.0
    decreases |s| - i
  {
    var r := PassFrom(s, i, norm);
    if i < |s| && r.Failure? {
      PassRowFailsAtZero(s, i, i + 1, norm);
      var row := PassRow(s, i, i + 1, norm);
      if row.Success? {
        PassFromFailsAtZero(row.value, i + 1, norm);
        var t: seq<Body> :| && |t| == |row.value|
                            && (forall k :: 0 <= k < |row.value| ==> MotionOnly(row.value[k], t[k]))
                            && Distance(t[r.error.i], t[r.error.j], norm) == 0.0;
        assert forall k :: 0 <= k < |s| ==> MotionOnly(s[k], t[k]);
      }
    }
  }

  /** One resolved pair advances the row by one. */
  lemma PassRowStep(s: seq<Body>, i: nat, j: nat, norm: (real, real) -> real, pair: (Body, Body))
    requires i < j < |s|
    requires Distance(s[i], s[j], norm) != 0.0
    requires pair == ResolvePair(s[i], s[j], Distance(s[i], s[j], norm))
    ensures PassRow(s, i, j, norm) == PassRow(s[i := pair.0][j := pair.1], i, j + 1, norm)
  {
  }

  /**
   * Lines 141-180 for row `i`: resolve the pairs `(i, i + 1)`, …, `(i, n - 1)`
   * in order, which is `PassRow` from `i + 1`.
   */
  method ResolveRow(people: seq<Body>, i: nat, norm: (real, real) -> real)
    returns (r: Result<seq<Body>, Coincident>)
    requires i < |people|
    ensures r == PassRow(people, i, i + 1, norm)
  {
    var s := people;
    var n := |people|;
    var j := i + 1;
    while j < n
      invariant i + 1 <= j <= n == |s|
      invariant PassRow(people, i, i + 1, norm) == PassRow(s, i, j, norm)
    {
      var d := Distance(s[i], s[j], norm);
      if d == 0.0 {
        return Failure(Coincident(i, j));
      }
      var pair := ResolvePair(s[i], s[j], d);
      var next := s[i := pair.0][j := pair.1];
      PassRowStep(s, i, j, norm, pair);
      s := next;
      j := j + 1;
    }
    return Success(s);
  }

  /**
   * Lines 140-181: resolve every pair `i < j` in ascending order, each pair
   * seeing the corrections of the pairs before it, which is `PassFrom` from
   * row 0. The pass keeps the total momentum and the centre of mass,
   * changes only positions and velocities, leaves a population without
   * overlaps untouched, and fails only at a pair whose distance is zero
   * when the pass reaches it.
   */
  method ResolveCollisions(people: seq<Body>, norm: (real, real) -> real)
    returns (r: Result<seq<Body>, Coincident>)
    ensures r == PassFrom(people, 0, norm)
    ensures r.Success? ==> |r.value| == |people|
    ensures r.Success? ==> Sum(Velocities(r.value)) == Sum(Velocities(people))
    ensures r.Success? ==> Sum(Positions(r.value)) == Sum(Positions(people))
    ensures r.Success? ==> forall k :: 0 <= k < |people| ==> MotionOnly(people[k], r.value[k])
    ensures r.Failure? ==> r.error.i < r.error.j < |people|
    ensures r.Failure? ==> exists s: seq<Body> ::
              && |s| == |people|
              && (forall k :: 0 <= k < |people| ==> MotionOnly(people[k], s[k]))
              && Distance(s[r.error.i], s[r.error.j], norm) == 0.0
    ensures (forall s: seq<Body>, i, j ::
               && |s| == |people| && (forall k :: 0 <= k < |people| ==> MotionOnly(people[k], s[k]))
               && 0 <= i < j < |s|
               ==> Distance(s[i], s[j], norm) != 0.0) ==> r.Success?
    ensures Apart(people, norm) ==> r == Success(people)
  {
    var s := people;
    var n := |people|;
    var i := 0;
    while i < n
      invariant 0 <= i <= n == |s|
      invariant PassFrom(people, 0, norm) == PassFrom(s, i, norm)
    {
      var row := ResolveRow(s, i, norm);
      if row.Failure? {
        PassFromFailsAtZero(people, 0, norm);
        PassFromConserves(people, 0, norm);
        return row;
      }
      s := row.value;
      i := i + 1;
    }
    PassFromConserves(people, 0, norm);
    return Success(s);
  }
}

=== FILE: delete_button.dfy ===
/**
 * The delete button (`DokusaiView.deletePerson`) as a state machine over the
 * press counter, the time of the last press and the slider value. A press
 * more than one second after the previous one starts a new chain; the third
 * press of a chain collapses the slider to 0; any other press lowers a
 * positive slider by one.
 *
 * The slider is a stepped control over `0...10` with step 1, so its value is
 * modelled as an integer.
 */
module DeleteButton {

  /** Longest gap, in seconds, between two presses of one chain. */
  const ChainWindow: real := 1.0
  /** Presses in one chain that collapse the population. */
  const CollapsePresses: int := 3

  datatype ButtonState = ButtonState(pressCount: int, lastPress: real, slider: int)

  /** The counter after the reset-on-gap and the increment of lines 80-85. */
  function NextCount(s: ButtonState, now: real): int {
    (if now - s.lastPress > ChainWindow then 0 else s.pressCount) + 1
  }

  /** Whether this press calls `adjustPeople`: a collapse, or a decrement of a positive slider. */
  predicate Adjusts(s: ButtonState, now: real) {
    NextCount(s, now) == CollapsePresses || s.slider > 0
  }

  /** One press of the delete button at clock reading `now`. */
  function Press(s: ButtonState, now: real): (r: ButtonState)
    ensures r.lastPress == now
    ensures now - s.lastPress > ChainWindow ==> r.pressCount == 1
    ensures now - s.lastPress <= ChainWindow && s.pressCount == CollapsePresses - 1 ==>
              r.slider == 0 && r.pressCount == 0
    ensures NextCount(s, now) != CollapsePresses ==>
              r.pressCount == NextCount(s, now)
              && r.slider == (if s.slider > 0 then s.slider - 1 else s.slider)
    ensures s.slider >= 0 ==> 0 <= r.slider <= s.slider
    ensures 0 <= s.pressCount < CollapsePresses ==> 0 <= r.pressCount < CollapsePresses
  {
    var count := NextCount(s, now);
    if count == CollapsePresses then
      ButtonState(0, now, 0)
    else if s.slider > 0 then
      ButtonState(count, now, s.slider - 1)
    else
      ButtonState(count, now, s.slider)
  }

  /** A run of presses at the given clock readings, in order. */
  function PressAll(s: ButtonState, times: seq<real>): ButtonState
    decreases |times|
  {
    if |times| == 0 then s else PressAll(Press(s, times[0]), times[1..])
  }

  /** Every press of the run comes more than the chain window after the one before it. */
  predicate Spaced(last: real, times: seq<real>) {
    && (|times| > 0 ==> times[0] - last > ChainWindow)
    && forall k :: 0 <= k < |times| - 1 ==> times[k + 1] - times[k] > ChainWindow
  }

  /** Three presses that form one chain empty the slider and reset the counter. */
  lemma RapidTripleCollapses(s: ButtonState, t1: real, t2: real, t3: real)
    requires s.pressCount == 0 || t1 - s.lastPress > ChainWindow
    requires t2 - t1 <= ChainWindow && t3 - t2 <= ChainWindow
    ensures PressAll(s, [t1, t2, t3]).slider == 0
    ensures PressAll(s, [t1, t2, t3]).pressCount == 0
  {
    var s1 := Press(s, t1);
    var s2 := Press(s1, t2);
    var s3 := Press(s2, t3);
    assert s1.pressCount == 1 && s2.pressCount == 2;
    assert [t1, t2, t3][1..] == [t2, t3];
    assert [t2, t3][1..] == [t3];
    assert PressAll(s, [t1, t2, t3]) == PressAll(s1, [t2, t3]) == PressAll(s2, [t3]) == PressAll(s3, []) == s3;
  }

  /** Spaced presses each lower the slider by exactly one, stopping at 0. */
  lemma {:induction false} SpacedPressesDecrement(s: ButtonState, times: seq<real>)
    requires s.slider >= 0
    requires Spaced(s.lastPress, times)
    ensures PressAll(s, times).slider == if s.slider >= |times| then s.slider - |times| else 0
    ensures |times| > 0 ==> PressAll(s, times).pressCount == 1
    decreases |times|
  {
    if |times| > 0 {
      var s' := Press(s, times[0]);
      assert Spaced(s'.lastPress, times[1..]);
      SpacedPressesDecrement(s', times[1..]);
    }
  }

  /** Over any run of presses the slider never rises and never turns negative, and the counter stays below three. */
  lemma {:induction false} PressesKeepBounds(s: ButtonState, times: seq<real>)
    requires s.slider >= 0
    requires 0 <= s.pressCount < CollapsePresses
    ensures 0 <= PressAll(s, times).slider <= s.slider
    ensures 0 <= PressAll(s, times).pressCount < CollapsePresses
    decreases |times|
  {
    if |times| > 0 {
      PressesKeepBounds(Press(s, times[0]), times[1..]);
    }
  }
}

=== FILE: dokusai_view.dfy ===
/**
 * The state `DokusaiView` keeps (the bodies, the delete button's counter and
 * last press time, the slider value and the frame) and the four ways it
 * changes: the screen appearing, the slider moving, the delete button being
 * pressed, and the timer's tick.
 */
module DokusaiView {
  import opened Wrappers
  import opened Bodies
  import opened Population
  import opened DeleteButton
  import opened Collision
  import opened Motion

  /** Highest slider value: the most non-user bodies on screen. */
  const MaxPopulation: int := 10
  /** Slider value when the screen is created. */
  const InitialSlider: int := 5

  datatype View = View(people: seq<Body>, button: ButtonState, frame: Frame)

  /** The view as created at clock reading `now`, before it appears. */
  function Initial(frame: Frame, now: real): (r: View)
    ensures r.people == [] && r.frame == frame
    ensures r.button.pressCount == 0 && r.button.lastPress == now && r.button.slider == InitialSlider
  {
    View([], ButtonState(0, now, InitialSlider), frame)
  }

  /**
   * The invariant every handler keeps: the user's body first and alone,
   * one body per slider step plus the user's, the slider within its range,
   * and the press counter short of a collapse.
   */
  predicate Consistent(v: View) {
    && UserFirst(v.people)
    && |v.people| == v.button.slider + 1
    && 0 <= v.button.slider <= MaxPopulation
    && 0 <= v.button.pressCount < CollapsePresses
  }

  /** Every body is well formed at clock reading `now`. */
  predicate Settled(people: seq<Body>, now: real) {
    forall k :: 0 <= k < |people| ==> WellFormed(people[k], now)
  }

  /** Every body lies inside the arena. */
  predicate AllContained(people: seq<Body>, frame: Frame) {
    forall k :: 0 <= k < |people| ==> Contained(people[k], frame)
  }

  /** Lines 29-35: record the frame, add the user's body if there is none, and match the slider. */
  function OnAppear(v: View, frame: Frame, user: SpawnDraw, spawns: seq<SpawnDraw>, now: real): (r: View)
    requires v.button.slider >= -1
    requires |v.people| == 0 ==> ValidSpawn(user, frame)
    requires AllValidSpawns(spawns, frame)
    requires |spawns| >= v.button.slider + 1 - (if |v.people| == 0 then 1 else |v.people|)
    ensures r.frame == frame && r.button == v.button
    ensures |r.people| == v.button.slider + 1
    ensures |v.people| == 0 && v.button.slider >= 0 ==> r.people[0].isUser
    ensures |v.people| > 0 && r.people != [] ==> r.people[0] == Shown(v.people[0])
  {
    var people := if |v.people| == 0 then [NewBody(true, frame, user, now)] else v.people;
    v.(frame := frame, people := Reconcile(people, v.button.slider, frame, spawns, now))
  }

  /** Lines 65-70: the stepped slider moves to `value` and the population follows. */
  function SlideTo(v: View, value: int, spawns: seq<SpawnDraw>, now: real): (r: View)
    requires 0 <= value <= MaxPopulation
    requires AllValidSpawns(spawns, v.frame)
    requires |spawns| >= value + 1 - |v.people|
    ensures r.button == v.button.(slider := value) && r.frame == v.frame
    ensures |r.people| == value + 1
  {
    View(Reconcile(v.people, value, v.frame, spawns, now), v.button.(slider := value), v.frame)
  }

  /** Lines 78-98: one press of the delete button, adjusting the population when the slider was touched. */
  function DeletePerson(v: View, now: real, spawns: seq<SpawnDraw>): (r: View)
    requires AllValidSpawns(spawns, v.frame)
    requires |spawns| >= Press(v.button, now).slider + 1 - |v.people|
    ensures r.button == Press(v.button, now) && r.frame == v.frame
    ensures Adjusts(v.button, now) && v.button.slider >= 0 ==> |r.people| == r.button.slider + 1
    ensures !Adjusts(v.button, now) ==> r.people == v.people
  {
    var button := Press(v.button, now);
    if Adjusts(v.button, now) then
      View(Reconcile(v.people, button.slider, v.frame, spawns, now), button, v.frame)
    else
      v.(button := button)
  }

  /**
   * Lines 132-231: resolve collisions over all pairs, then advance every body.
   * `draws[k]` holds the random values body `k` uses if it retargets. The
   * tick is the pass over all pairs followed by the one-body step of every
   * resolved body; it fails exactly when the pass stops at a pair whose
   * distance is zero when the pass reaches it.
   */
  method Tick(v: View, now: real, draws: seq<RetargetDraw>, norm: (real, real) -> real, rescale: (Vec, real) -> Vec)
    returns (r: Result<View, Coincident>)
    requires |draws| == |v.people|
    requires forall k :: 0 <= k < |draws| ==> ValidRetarget(draws[k])
    ensures r.Success? ==> r.value.button == v.button && r.value.frame == v.frame
    ensures r.Success? ==> |r.value.people| == |v.people|
    ensures r.Success? ==> forall k :: 0 <= k < |v.people| ==>
              && r.value.people[k].isUser == v.people[k].isUser && r.value.people[k].id == v.people[k].id
              && r.value.people[k].isVisible == v.people[k].isVisible
    ensures r.Success? && Roomy(v.frame) ==> AllContained(r.value.people, v.frame)
    ensures r.Success? ==> forall before :: before <= now && Settled(v.people, before) ==> Settled(r.value.people, now)
    ensures r.Failure? <==> PassFrom(v.people, 0, norm).Failure?
    ensures r.Failure? ==> r.error == PassFrom(v.people, 0, norm).error
    ensures r.Success? ==> forall k :: 0 <= k < |v.people| ==>
              r.value.people[k] == AdvanceBody(PassFrom(v.people, 0, norm).value[k], v.frame, now, draws[k], rescale)
    ensures r.Failure? ==> r.error.i < r.error.j < |v.people|
    ensures r.Failure? ==> exists s: seq<Body> ::
              && |s| == |v.people|
              && (forall k :: 0 <= k < |v.people| ==> MotionOnly(v.people[k], s[k]))
              && Distance(s[r.error.i], s[r.error.j], norm) == 0.0
    ensures (forall s: seq<Body>, i, j ::
               && |s| == |v.people| && (forall k :: 0 <= k < |v.people| ==> MotionOnly(v.people[k], s[k]))
               && 0 <= i < j < |s|
               ==> Distance(s[i], s[j], norm) != 0.0) ==> r.Success?
    ensures Apart(v.people, norm) ==>
              r.Success? && forall k :: 0 <= k < |v.people| ==>
                r.value.people[k] == AdvanceBody(v.people[k], v.frame, now, draws[k], rescale)
  {
    var resolved := ResolveCollisions(v.people, norm);
    if resolved.Failure? {
      return Failure(resolved.error);
    }
    var s := resolved.value;
    var out := AdvanceAll(s, v.frame, now, draws, rescale);
    forall m | 0 <= m < |out| && WellFormed(v.people[m], now)
      ensures WellFormed(out[m], now)
    {
      assert MotionOnly(v.people[m], s[m]);
      assert WellFormed(s[m], now);
    }
    forall before | before <= now && Settled(v.people, before)
      ensures Settled(out, now)
    {
      SettledLater(v.people, before, now);
    }
    return Success(v.(people := out));
  }

  /** Bodies well formed at one clock reading stay well formed at any later one. */
  lemma SettledLater(people: seq<Body>, before: real, now: real)
    requires Settled(people, before) && before <= now
    ensures Settled(people, now)
  {
  }

  /** The screen's first appearance establishes the invariant, with every body in the arena. */
  lemma AppearEstablishes(frame: Frame, created: real, user: SpawnDraw, spawns: seq<SpawnDraw>, now: real)
    requires ValidSpawn(user, frame)
    requires AllValidSpawns(spawns, frame)
    requires |spawns| >= InitialSlider
    ensures var r := OnAppear(Initial(frame, created), frame, user, spawns, now);
            && Consistent(r)
            && Settled(r.people, now)
            && AllContained(r.people, frame)
  {
    var v := Initial(frame, created);
    var people := [NewBody(true, frame, user, now)];
    var r := OnAppear(v, frame, user, spawns, now);
    assert r.people == Reconcile(people, InitialSlider, frame, spawns, now);
    forall k | 0 <= k < |r.people|
      ensures WellFormed(r.people[k], now) && Contained(r.people[k], frame)
    {
      if k > 0 {
        assert r.people[k] == NewBody(false, frame, spawns[k - 1], now);
      }
    }
    UserSurvives(people, InitialSlider, frame, spawns, now);
  }

  /** Moving the slider keeps the invariant; new bodies are well formed and inside the arena. */
  lemma SlideKeepsInvariant(v: View, value: int, spawns: seq<SpawnDraw>, now: real)
    requires Consistent(v)
    requires 0 <= value <= MaxPopulation
    requires AllValidSpawns(spawns, v.frame)
    requires |spawns| >= value + 1 - |v.people|
    ensures Consistent(SlideTo(v, value, spawns, now))
    ensures Settled(v.people, now) ==> Settled(SlideTo(v, value, spawns, now).people, now)
    ensures AllContained(v.people, v.frame) ==> AllContained(SlideTo(v, value, spawns, now).people, v.frame)
  {
    UserSurvives(v.people, value, v.frame, spawns, now);
    ReconcileKeepsBodyFacts(v.people, value, v.frame, spawns, now);
  }

  /** Pressing delete keeps the invariant and never adds bodies. */
  lemma DeleteKeepsInvariant(v: View, now: real)
    requires Consistent(v)
    ensures Consistent(DeletePerson(v, now, []))
    ensures |DeletePerson(v, now, []).people| <= |v.people|
    ensures Settled(v.people, now) ==> Settled(DeletePerson(v, now, []).people, now)
    ensures AllContained(v.people, v.frame) ==> AllContained(DeletePerson(v, now, []).people, v.frame)
  {
    var button := Press(v.button, now);
    if Adjusts(v.button, now) {
      UserSurvives(v.people, button.slider, v.frame, [], now);
      ReconcileKeepsBodyFacts(v.people, button.slider, v.frame, [], now);
    }
  }

  /** Reconciliation keeps well-formedness and containment of the bodies it keeps, and new bodies have both. */
  lemma ReconcileKeepsBodyFacts(people: seq<Body>, count: int, frame: Frame, spawns: seq<SpawnDraw>, now: real)
    requires count >= -1
    requires |spawns| >= count + 1 - |people|
    requires AllValidSpawns(spawns, frame)
    ensures Settled(people, now) ==> Settled(Reconcile(people, count, frame, spawns, now), now)
    ensures AllContained(people, frame) ==> AllContained(Reconcile(people, count, frame, spawns, now), frame)
  {
    var r := Reconcile(people, count, frame, spawns, now);
    forall k | |people| <= k < |r|
      ensures WellFormed(r[k], now) && Contained(r[k], frame)
    {
      assert r[k] == NewBody(false, frame, spawns[k - |people|], now);
    }
  }
}

=== FILE: motion.dfy ===
/**
 * Motion integration, the second half of `DokusaiView.updatePositions`:
 * each body moves by its velocity, bounces off the arena walls axis by axis,
 * and follows its speed-retarget schedule with a linear interpolation of its
 * cruising speed.
 *
 * The heading-preserving rebuild of the velocity (`atan2`, `cos`, `sin`) is
 * the function parameter `rescale`: `rescale(v, s)` is the velocity the
 * platform builds from the heading of `v` and the speed `s`.
 */
module Motion {
  import opened Wrappers
  import opened Bodies

  /**
   * Wall handling on one axis (lines 189-196): `c` is the coordinate after
   * the move, `v` the velocity component, `[lo, hi]` the allowed range.
   * Touching or crossing a wall reverses the component and clamps the
   * coordinate.
   */
  function ReflectAxis(c: real, v: real, lo: real, hi: real): (r: (real, real))
    ensures lo <= hi ==> lo <= r.0 <= hi
    ensures (c <= lo || c >= hi) ==> r.1 == -v
    ensures lo < c < hi ==> r == (c, v)
    ensures r.0 == c || r.0 == lo || r.0 == hi
  {
    if c <= lo || c >= hi then
      (Max(lo, Min(c, hi)), -v)
    else
      (c, v)
  }

  function Min(a: real, b: real): real { if a <= b then a else b }
  function Max(a: real, b: real): real { if a >= b then a else b }

  function Abs(a: real): real { if a >= 0.0 then a else -a }

  /** The clamped coordinate is the point of `[lo, hi]` nearest to where the body moved. */
  lemma ClampIsNearest(c: real, v: real, lo: real, hi: real, z: real)
    requires lo <= z <= hi
    ensures Abs(ReflectAxis(c, v, lo, hi).0 - c) <= Abs(z - c)
  {
  }

  /** Lines 185-196: move one tick along the velocity, then reflect on each axis. */
  function MoveBody(b: Body, frame: Frame): (r: Body)
    ensures Roomy(frame) ==> Contained(r, frame)
    ensures r.vel.x == b.vel.x || r.vel.x == -b.vel.x
    ensures r.vel.y == b.vel.y || r.vel.y == -b.vel.y
    ensures r == b.(pos := r.pos, vel := r.vel)
    ensures var p := b.pos.Plus(b.vel);
            Radius < p.x < frame.width - Radius && Radius < p.y < frame.height - Radius ==>
              r.pos == p && r.vel == b.vel
  {
    var p := b.pos.Plus(b.vel);
    var (x, vx) := ReflectAxis(p.x, b.vel.x, Radius, frame.width - Radius);
    var (y, vy) := ReflectAxis(p.y, b.vel.y, Radius, frame.height - Radius);
    b.(pos := Vec(x, y), vel := Vec(vx, vy))
  }

  /** The values `random(in:)` supplies if this body retargets on this tick. */
  datatype RetargetDraw = RetargetDraw(interval: real, target: real)

  predicate ValidRetarget(d: RetargetDraw) {
    MinInterval <= d.interval <= MaxInterval && InSpeedBand(d.target)
  }

  /** Line 199: the retarget interval has run out. */
  predicate RetargetDue(b: Body, now: real) {
    now - b.lastSpeedChangeTime > b.nextSpeedChangeInterval
  }

  /** Lines 199-208: schedule a new target speed when the interval has run out. */
  function Retarget(b: Body, now: real, d: RetargetDraw): (r: Body)
    ensures RetargetDue(b, now) ==>
              && r.lastSpeedChangeTime == now && r.nextSpeedChangeInterval == d.interval
              && r.targetSpeed == Some(d.target) && r.speedChangeStartTime == Some(now)
    ensures !RetargetDue(b, now) ==> r == b
    ensures r == b.(lastSpeedChangeTime := r.lastSpeedChangeTime,
                    nextSpeedChangeInterval := r.nextSpeedChangeInterval,
                    targetSpeed := r.targetSpeed,
                    speedChangeStartTime := r.speedChangeStartTime)
  {
    if RetargetDue(b, now) then
      b.(lastSpeedChangeTime := now, nextSpeedChangeInterval := d.interval,
         targetSpeed := Some(d.target), speedChangeStartTime := Some(now))
    else
      b
  }

  /** Speed after a fraction `t` of a transition from `s` to `target` (line 215). */
  function Lerp(s: real, target: real, t: real): real {
    s * (1.0 - t) + target * t
  }

  /** An interpolated speed lies between its two ends. */
  lemma LerpBetween(s: real, target: real, t: real)
    requires 0.0 <= t <= 1.0
    ensures Min(s, target) <= Lerp(s, target, t) <= Max(s, target)
  {
    if s <= target {
      LerpRising(s, target, t);
    } else {
      LerpRising(target, s, 1.0 - t);
      assert Lerp(s, target, t) == Lerp(target, s, 1.0 - t);
    }
  }

  lemma LerpRising(s: real, target: real, t: real)
    requires 0.0 <= t <= 1.0 && s <= target
    ensures s <= Lerp(s, target, t) <= target
  {
    var a := target - s;
    FractionWithin(a, t);
    calc {
      Lerp(s, target, t);
      s * (1.0 - t) + target * t;
      s * (1.0 - t) + (s + a) * t;
      s + a * t;
    }
  }

  /** A fraction `t` of a non-negative amount lies between zero and the amount. */
  lemma FractionWithin(a: real, t: real)
    requires a >= 0.0 && 0.0 <= t <= 1.0
    ensures 0.0 <= a * t <= a
  {
    assert a - a * t == a * (1.0 - t);
  }

  /**
   * Lines 211-228: while a transition is pending, move the speed toward the
   * target in proportion to the time elapsed; once the duration has passed,
   * snap to the target and clear the transition.
   */
  function Interpolate(b: Body, now: real, rescale: (Vec, real) -> Vec): (r: Body)
    ensures b.targetSpeed.None? || b.speedChangeStartTime.None? ==> r == b
    ensures b.targetSpeed.Some? && b.speedChangeStartTime.Some? ==>
              var elapsed := now - b.speedChangeStartTime.value;
              if elapsed < SpeedChangeDuration then
                && r.targetSpeed == b.targetSpeed && r.speedChangeStartTime == b.speedChangeStartTime
                && r.speed == Lerp(b.speed, b.targetSpeed.value, elapsed / SpeedChangeDuration)
                && r.vel == rescale(b.vel, r.speed)
              else
                && r.speed == b.targetSpeed.value && r.vel == rescale(b.vel, r.speed)
                && r.targetSpeed.None? && r.speedChangeStartTime.None?
    ensures r == b.(speed := r.speed, vel := r.vel, targetSpeed := r.targetSpeed,
                    speedChangeStartTime := r.speedChangeStartTime)
  {
    match (b.targetSpeed, b.speedChangeStartTime)
    case (Some(target), Some(start)) =>
      var elapsed := now - start;
      if elapsed < SpeedChangeDuration then
        var t := elapsed / SpeedChangeDuration;
        var speed := Lerp(b.speed, target, t);
        b.(speed := speed, vel := rescale(b.vel, speed))
      else
        b.(speed := target, vel := rescale(b.vel, target), targetSpeed := None, speedChangeStartTime := None)
    case _ => b
  }

  /**
   * Lines 199-229 for one body: the retarget check, then the interpolation.
   * Position, identity, user flag and visibility are not touched; a body
   * whose interval has not run out and that has no transition pending is
   * left exactly as it was.
   */
  function SpeedStep(b: Body, now: real, d: RetargetDraw, rescale: (Vec, real) -> Vec): (r: Body)
    ensures r.pos == b.pos && r.id == b.id && r.isUser == b.isUser && r.isVisible == b.isVisible
    ensures !RetargetDue(b, now) && b.targetSpeed.None? ==> r == b
    ensures RetargetDue(b, now) ==> r.lastSpeedChangeTime == now && r.nextSpeedChangeInterval == d.interval
    ensures !RetargetDue(b, now) ==>
              r.lastSpeedChangeTime == b.lastSpeedChangeTime && r.nextSpeedChangeInterval == b.nextSpeedChangeInterval
  {
    Interpolate(Retarget(b, now, d), now, rescale)
  }

  /**
   * Lines 185-229 for one body: the wall step first, then the speed step on
   * the moved body. Identity, user flag and visibility are kept, and in a
   * roomy frame the body ends inside the walls. The speed schedule does not
   * depend on the move, and a rebuilt velocity starts from the reflected one.
   */
  function AdvanceBody(b: Body, frame: Frame, now: real, d: RetargetDraw, rescale: (Vec, real) -> Vec): (r: Body)
    ensures r.id == b.id && r.isUser == b.isUser && r.isVisible == b.isVisible
    ensures r.pos == MoveBody(b, frame).pos
    ensures Roomy(frame) ==> Contained(r, frame)
    ensures var q := SpeedStep(b, now, d, rescale);
            && r.speed == q.speed && r.targetSpeed == q.targetSpeed && r.speedChangeStartTime == q.speedChangeStartTime
            && r.lastSpeedChangeTime == q.lastSpeedChangeTime && r.nextSpeedChangeInterval == q.nextSpeedChangeInterval
    ensures r.vel == MoveBody(b, frame).vel || r.vel == rescale(MoveBody(b, frame).vel, r.speed)
  {
    SpeedStep(MoveBody(b, frame), now, d, rescale)
  }

  /** On the tick a retarget fires, no time has elapsed, so the speed stays put and the transition stays pending. */
  lemma RetargetTickKeepsSpeed(b: Body, now: real, d: RetargetDraw, rescale: (Vec, real) -> Vec)
    requires RetargetDue(b, now)
    ensures var r := SpeedStep(b, now, d, rescale);
            && r.speed == b.speed
            && r.targetSpeed == Some(d.target) && r.speedChangeStartTime == Some(now)
            && r.lastSpeedChangeTime == now && r.nextSpeedChangeInterval == d.interval
  {
  }

  /** Once the transition's duration has elapsed, the body cruises at the target and the transition is over. */
  lemma TransitionCompletes(b: Body, now: real, d: RetargetDraw, rescale: (Vec, real) -> Vec)
    requires b.targetSpeed.Some? && b.speedChangeStartTime.Some?
    requires !RetargetDue(b, now)
    requires now - b.speedChangeStartTime.value >= SpeedChangeDuration
    ensures var r := SpeedStep(b, now, d, rescale);
            r.speed == b.targetSpeed.value && r.targetSpeed.None? && r.speedChangeStartTime.None?
  {
  }

  /**
   * The speed step keeps a body well formed as the clock moves forward: the
   * speed stays in the band, including mid-transition, and the target and
   * start time stay set together.
   */
  lemma SpeedStepKeepsWellFormed(b: Body, before: real, now: real, d: RetargetDraw, rescale: (Vec, real) -> Vec)
    requires WellFormed(b, before) && before <= now
    requires ValidRetarget(d)
    ensures WellFormed(SpeedStep(b, now, d, rescale), now)
  {
    var m := Retarget(b, now, d);
    assert WellFormed(m, now);
    if m.targetSpeed.Some? {
      var elapsed := now - m.speedChangeStartTime.value;
      if elapsed < SpeedChangeDuration {
        assert 0.0 <= elapsed / SpeedChangeDuration <= 1.0;
        LerpBetween(m.speed, m.targetSpeed.value, elapsed / SpeedChangeDuration);
      }
    }
  }

  /** A whole tick's motion for one body keeps it inside the arena and well formed. */
  lemma AdvanceKeepsInvariant(b: Body, frame: Frame, before: real, now: real, d: RetargetDraw, rescale: (Vec, real) -> Vec)
    requires WellFormed(b, before) && before <= now
    requires ValidRetarget(d)
    ensures var r := AdvanceBody(b, frame, now, d, rescale);
            && WellFormed(r, now)
            && (Roomy(frame) ==> Contained(r, frame))
            && r.isUser == b.isUser && r.id == b.id && r.isVisible == b.isVisible
  {
    var m := MoveBody(b, frame);
    assert WellFormed(m, before);
    SpeedStepKeepsWellFormed(m, before, now, d, rescale);
  }

  /** Lines 183-230: the per-body loop of a tick, one retarget draw per body. */
  method AdvanceAll(people: seq<Body>, frame: Frame, now: real, draws: seq<RetargetDraw>, rescale: (Vec, real) -> Vec)
    returns (out: seq<Body>)
    requires |draws| == |people|
    requires forall k :: 0 <= k < |draws| ==> ValidRetarget(draws[k])
    ensures |out| == |people|
    ensures forall m :: 0 <= m < |out| ==> out[m].isUser == people[m].isUser && out[m].id == people[m].id
    ensures Roomy(frame) ==> forall m :: 0 <= m < |out| ==> Contained(out[m], frame)
    ensures forall m :: 0 <= m < |out| && WellFormed(people[m], now) ==> WellFormed(out[m], now)
    ensures forall m :: 0 <= m < |out| ==> out[m] == AdvanceBody(people[m], frame, now, draws[m], rescale)
  {
    out := [];
    var k := 0;
    while k < |people|
      invariant 0 <= k <= |people|
      invariant |out| == k
      invariant forall m :: 0 <= m < k ==> out[m].isUser == people[m].isUser && out[m].id == people[m].id
      invariant Roomy(frame) ==> forall m :: 0 <= m < k ==> Contained(out[m], frame)
      invariant forall m :: 0 <= m < k && WellFormed(people[m], now) ==> WellFormed(out[m], now)
      invariant forall m :: 0 <= m < k ==> out[m] == AdvanceBody(people[m], frame, now, draws[m], rescale)
    {
      var b := AdvanceBody(people[k], frame, now, draws[k], rescale);
      if WellFormed(people[k], now) {
        AdvanceKeepsInvariant(people[k], frame, now, now, draws[k], rescale);
      }
      out := out + [b];
      k := k + 1;
    }
  }
}

=== FILE: population.dfy ===
/**
 * Population reconciliation (`DokusaiView.adjustPeople`): grow or shrink the
 * ordered list of bodies to the slider's count plus the user's own body,
 * appending new non-user bodies at the tail or removing from the tail, and
 * then mark every body visible.
 */
module Population {
  import opened Bodies

  /** The user's body comes first and is the only user body. */
  predicate UserFirst(people: seq<Body>) {
    && |people| > 0
    && people[0].isUser
    && forall i :: 0 < i < |people| ==> !people[i].isUser
  }

  function Shown(b: Body): Body {
    b.(isVisible := true)
  }

  /**
   * Declarative result of `adjustPeople(to: count)`: the first
   * `min(|people|, count + 1)` bodies kept in order, the missing tail made of
   * fresh non-user bodies built from `spawns`, and everyone visible.
   * `count >= -1` is what `removeLast` needs: it cannot remove more bodies
   * than there are.
   */
  function Reconcile(people: seq<Body>, count: int, frame: Frame, spawns: seq<SpawnDraw>, now: real): (r: seq<Body>)
    requires count >= -1
    requires |spawns| >= count + 1 - |people|
    requires AllValidSpawns(spawns, frame)
    ensures |r| == count + 1
    ensures forall i :: 0 <= i < |r| ==> r[i].isVisible
    ensures forall i :: 0 <= i < |r| && i < |people| ==> r[i] == Shown(people[i])
    ensures forall i :: |people| <= i < |r| ==>
              r[i] == NewBody(false, frame, spawns[i - |people|], now) && !r[i].isUser
  {
    var r := seq(count + 1, i requires 0 <= i < count + 1 =>
      if i < |people| then Shown(people[i]) else NewBody(false, frame, spawns[i - |people|], now));
    forall i | |people| <= i < |r|
      ensures r[i].isVisible && !r[i].isUser
    {
      var b := NewBody(false, frame, spawns[i - |people|], now);
      assert r[i] == b;
    }
    r
  }

  /**
   * `adjustPeople` as the source writes it: an append loop or a
   * `removeLast`, then a loop that marks every body visible.
   */
  method AdjustPeople(people: seq<Body>, count: int, frame: Frame, spawns: seq<SpawnDraw>, now: real)
    returns (r: seq<Body>)
    requires count >= -1
    requires |spawns| >= count + 1 - |people|
    requires AllValidSpawns(spawns, frame)
    ensures r == Reconcile(people, count, frame, spawns, now)
  {
    var total := count + 1;
    r := people;
    if total > |r| {
      var need := total - |r|;
      var k := 0;
      while k < need
        invariant 0 <= k <= need
        invariant |r| == |people| + k
        invariant r[..|people|] == people
        invariant forall i :: |people| <= i < |r| ==> r[i] == NewBody(false, frame, spawns[i - |people|], now)
      {
        r := r + [NewBody(false, frame, spawns[k], now)];
        k := k + 1;
      }
    } else if total < |r| {
      r := r[..|r| - (|r| - total)];
    }
    assert |r| == total;
    assert forall i :: 0 <= i < total && i < |people| ==> r[i] == people[i];
    var i := 0;
    while i < |r|
      invariant 0 <= i <= |r| == total
      invariant forall k :: 0 <= k < i ==> r[k] == Reconcile(people, count, frame, spawns, now)[k]
      invariant forall k :: i <= k < total && k < |people| ==> r[k] == people[k]
      invariant forall k :: i <= k < total && |people| <= k ==> r[k] == NewBody(false, frame, spawns[k - |people|], now)
    {
      r := r[i := Shown(r[i])];
      i := i + 1;
    }
  }

  /** The user's body survives every reconciliation that keeps at least it, unchanged but for visibility. */
  lemma UserSurvives(people: seq<Body>, count: int, frame: Frame, spawns: seq<SpawnDraw>, now: real)
    requires UserFirst(people)
    requires count >= 0
    requires |spawns| >= count + 1 - |people|
    requires AllValidSpawns(spawns, frame)
    ensures UserFirst(Reconcile(people, count, frame, spawns, now))
    ensures Reconcile(people, count, frame, spawns, now)[0] == Shown(people[0])
  {
  }

  /** Reconciling to the same count a second time changes nothing and draws nothing. */
  lemma ReconcileIdempotent(people: seq<Body>, count: int, frame: Frame, spawns: seq<SpawnDraw>, now: real)
    requires count >= -1
    requires |spawns| >= count + 1 - |people|
    requires AllValidSpawns(spawns, frame)
    ensures Reconcile(Reconcile(people, count, frame, spawns, now), count, frame, [], now)
            == Reconcile(people, count, frame, spawns, now)
  {
    var once := Reconcile(people, count, frame, spawns, now);
    var twice := Reconcile(once, count, frame, [], now);
    assert forall i :: 0 <= i < |twice| ==> twice[i] == Shown(once[i]) == once[i];
  }
}

=== FILE: wrappers.dfy ===
/** `Option` and `Result`, used across the model. */
module Wrappers {

  /** A value that may be absent (Swift's `T?`). */
  datatype Option<+T> = None | Some(value: T)

  /** Either a successful value or an error that ends the computation. */
  datatype Result<+R, +E> = Success(value: R) | Failure(error: E)
}
